=== FILE: README.md ===
# ts-graphql-plugin: template and import helpers, and the type-generation driver

This project is a Dafny model of two pure, sequential parts of ts-graphql-plugin.
The plugin finds GraphQL documents embedded in TypeScript template literals and
generates TypeScript type files for them.

- `src/ts-ast-util/utilily-functions.ts` holds the syntax-tree helpers. It has a
  position lookup (`findNode`) and a conditional pre-order collector
  (`findAllNodes`). It rebuilds a template literal's text with every `${...}` site
  blanked out (`getSanitizedTemplateText`). It also matches, merges and reduces
  import declarations.
- `src/analyzer/type-generator.ts` holds `TypeGenerator.generateTypes`. It walks
  the extractor's file entries. For each entry it skips it, reports a "complex
  operations" error, emits one `__generated__/<name>.ts` file, or reports or
  suppresses a typing error. `createAddon` builds one addon per registered factory.

Modules:

| file | module | models |
|---|---|---|
| `common.dfy` | `Common` | `undefined` as `Option`, thrown exceptions as `Result`, JavaScript string truthiness |
| `syntax_tree.dfy` | `SyntaxTree` | `findNode`, `findAllNodes` over nodes with `[start, end)` ranges |
| `template_text.dfy` | `TemplateText` | `getSanitizedTemplateText` |
| `imports.dfy` | `Imports` | `isImportDeclarationWithCondition`, the merge and removal helpers |
| `type_generation.dfy` | `TypeGeneration` | `createAddon`, `generateTypes` as a fold over file entries |

The model makes these choices:

- TypeScript nodes are plain datatypes. `astf.update*` calls become record construction.
- A syntax node keeps only its `getStart()`/`getEnd()` range and its children, in
  `ts.forEachChild` order.
- JavaScript truthiness is written out. `name` and `from` in the import matcher
  count as absent when they are `""`. So does an empty dominant-definition name in
  `generateTypes`.
- `''.padEnd(n, ' ')` yields nothing when `n` is not positive.
- `error.node.loc!` on an undefined `loc` throws inside the `catch` block, so that
  exception escapes `generateTypes`.
- The extractor's result, `pickupErrors`, `getDominantDefinition`, the visitor with
  the printer, `dirname` and `dasherize` are inputs to `generateTypes`. The entry's
  position mapper is also an input.
- `path.resolve(dir, '__generated__', f)` is taken to be `dir + "/__generated__/" + f`,
  that is, `dir` is assumed to be a normalised absolute directory. The root
  directory `/` is the exception: it gives `/__generated__/` + `f`. For a
  relative or non-normalised file name only the `/__generated__/<name>.ts`
  suffix agrees with `path.resolve`, which prefixes the working directory and
  normalises.

## Model

| member | source | states |
|---|---|---|
| `SyntaxTree.FirstContaining` | src/ts-ast-util/utilily-functions.ts:43 | the child `forEachChild` stops at is the first in child order containing the position; absent when none does |
| `SyntaxTree.FindNode` | src/ts-ast-util/utilily-functions.ts:40-47 | undefined exactly when the root's `[start, end)` misses the position; otherwise the node found contains it and none of its children does |
| `SyntaxTree.FindNodeInTree` | src/ts-ast-util/utilily-functions.ts:40-47 | the node found is a node of the searched tree |
| `SyntaxTree.FindNodeUnique` | src/ts-ast-util/utilily-functions.ts:41-44 | in a well-formed tree (nested, non-overlapping ranges) any node containing the position with no child containing it is exactly the one `findNode` returns |
| `SyntaxTree.Record` | src/ts-ast-util/utilily-functions.ts:57 | a hit of `true` records the node itself; any other truthy value is recorded as that value |
| `SyntaxTree.FindAllNodes` | src/ts-ast-util/utilily-functions.ts:49-65 | no contract of its own; characterised by `Record` and the `FindAllNodes*` lemmas below (sound, complete, stops at a hit, in pre-order) |
| `SyntaxTree.FindAllNodesSound` | src/ts-ast-util/utilily-functions.ts:49-65 | every entry of the result records a node of the tree for which `cond` was truthy and which lies below no other hit |
| `SyntaxTree.FindAllNodesComplete` | src/ts-ast-util/utilily-functions.ts:53-64 | every hit reached without passing through another hit is in the result |
| `SyntaxTree.FindAllNodesStopsAtHit` | src/ts-ast-util/utilily-functions.ts:55-58 | a hit is recorded alone and its descendants are not examined |
| `SyntaxTree.FindAllNodesInPreOrder` | src/ts-ast-util/utilily-functions.ts:49-65 | for every `cond` the result is the pre-order listing of all hits of the tree with some left out and the rest kept in order |
| `SyntaxTree.FindAllNodesPreOrder` | src/ts-ast-util/utilily-functions.ts:54-61 | when hits never nest, the result equals the pre-order listing of all hits of the tree |
| `TemplateText.Padding` | src/ts-ast-util/utilily-functions.ts:79 | `padEnd` yields `max(n, 0)` characters, all spaces |
| `TemplateText.SpansLengthOfParsed` | src/ts-ast-util/utilily-functions.ts:76-81 | for expressions with `pos <= end` each span adds `end - pos + 3` spaces plus its literal, so the spans add the sum of those lengths |
| `TemplateText.GetSanitizedTemplateText` | src/ts-ast-util/utilily-functions.ts:67-84 | `sourcePosition` is start + 1; a no-substitution literal keeps its text or `""`; otherwise the text is the head followed, per span, by all-space padding and the span's literal, each at its computed offset; for parsed expressions the length is `|head| + Σ(end - pos + 3 + |literal|)` |
| `Imports.IsImportDeclarationWithCondition` | src/ts-ast-util/utilily-functions.ts:91-114 | false without name and from, for non-imports, for a mismatched module, and for a named query on a clause-less import; true for a matching `from` alone; otherwise default-only, bindings-only or either according to `isDefault` |
| `Imports.EitherKindMatches` | src/ts-ast-util/utilily-functions.ts:102-112 | with `isDefault` absent the matcher accepts exactly the union of the default-only and bindings-only matchers |
| `Imports.MergeNamedBinding` | src/ts-ast-util/utilily-functions.ts:4-11 | undefined only when both are; the present side when one is; `base` when a namespace import is involved; else `base`'s elements then `head`'s |
| `Imports.MergeNamedBindingNames` | src/ts-ast-util/utilily-functions.ts:4-11 | without namespace imports the merge binds exactly the union of both sides' names |
| `Imports.MergeImportClause` | src/ts-ast-util/utilily-functions.ts:22-30 | undefined only when both are; `head`'s default name if any, else `base`'s; merged bindings; type-only only when both are |
| `Imports.MergeImportDeclarationsWithSameModules` | src/ts-ast-util/utilily-functions.ts:116-122 | `base` unchanged unless both specifiers are string literals with equal text; then `head`'s modifiers if present, the merged clause, `base`'s specifier, no attributes |
| `Imports.MergeDeclarationNames` | src/ts-ast-util/utilily-functions.ts:116-122 | merging imports of one module binds the union of their names when no namespace import and at most one default name is involved |
| `Imports.MergeKeepsMatch` | src/ts-ast-util/utilily-functions.ts:116-122 | a name either side matched is still matched after merging, provided no namespace import is involved and the two sides do not bring different default names |
| `Imports.WithoutNames` | src/ts-ast-util/utilily-functions.ts:17 | the kept elements are exactly those whose name is not listed |
| `Imports.RemoveFromNamedBinding` | src/ts-ast-util/utilily-functions.ts:13-20 | namespace imports untouched; named imports stay a named-imports list holding the unlisted elements in their original order; emptied bindings become undefined |
| `Imports.RemoveFromImportClause` | src/ts-ast-util/utilily-functions.ts:32-38 | the default name goes when listed; bindings are reduced; `isTypeOnly` kept; undefined when neither name nor bindings remain |
| `Imports.RemoveAliasFromImportDeclaration` | src/ts-ast-util/utilily-functions.ts:124-129 | undefined exactly when the clause vanishes; otherwise same modifiers and specifier with the reduced clause |
| `Imports.RemoveAliasNames` | src/ts-ast-util/utilily-functions.ts:124-129 | the remaining names are the original ones minus the listed ones, plus a namespace import's name |
| `Imports.RemoveAliasIdempotent` | src/ts-ast-util/utilily-functions.ts:124-129 | removing the same names again changes nothing |
| `Imports.RemoveUnlistedKeeps` | src/ts-ast-util/utilily-functions.ts:13-38 | removing names the import does not bind keeps the declaration with its import attributes dropped, provided it has no empty `{}` list |
| `Imports.RemoveDefeatsMatch` | src/ts-ast-util/utilily-functions.ts:124-129 | after removing a name, the import no longer matches it unless it is a namespace import's name |
| `Imports.RemoveDistributesOverMerge` | src/ts-ast-util/utilily-functions.ts:4-20 | for named imports, removing from a merge equals merging what removal leaves of each side |
| `TypeGeneration.DominantName` | src/analyzer/type-generator.ts:80 | the fragment's name for a `fragment` definition, the operation's name otherwise |
| `TypeGeneration.OutputFileName` | src/analyzer/type-generator.ts:82-86 | the output path lies directly inside the entry's directory: it starts with `dir` followed by a separator (just `/` for the root); `OutputFileNameShape` fixes the rest |
| `TypeGeneration.OutputFileNameShape` | src/analyzer/type-generator.ts:82-86 | the output path ends in `/__generated__/<dasherized name>.ts` and is exactly as long as the directory plus that suffix, so with the `dir/` prefix it is `dir/__generated__/<dasherized name>.ts` with nothing in between; different names in one directory give different paths |
| `TypeGeneration.CreateAddon` | src/analyzer/type-generator.ts:36-56 | the context carries the schema, output file, entry file name, source text and template range; one addon per factory, the i-th built by the i-th factory from that context |
| `TypeGeneration.TranslateTypeGenError` | src/analyzer/type-generator.ts:99-109 | the error is dropped exactly when its mapped start is in another expression; otherwise one located error with the original message and mapped start and end |
| `TypeGeneration.ComplexError` | src/analyzer/type-generator.ts:71-76 | the complex-operations message, located in the entry's file over the whole template literal's range with the file's full text |
| `TypeGeneration.ProcessEntry` | src/analyzer/type-generator.ts:67-115 | skipped exactly when there is no document or no name; `complex` gives the fixed error over the template node; otherwise a successful visit gives exactly one output named from the dominant name, a located `TypeGenError` gives its translated (or suppressed) error, any other exception is rethrown, and a `loc`-less `TypeGenError` is rethrown as the dereference's `TypeError` |
| `TypeGeneration.GenerateTypes` | src/analyzer/type-generator.ts:58-117 | succeeds exactly when no entry rethrows; then errors are the extractor's followed by the entries' in entry order, outputs in entry order; otherwise the first rethrowing entry's exception |
| `TypeGeneration.AtMostOnePerEntry` | src/analyzer/type-generator.ts:67-92 | no more outputs and no more type-generation errors than entries |
| `TypeGeneration.CollectAppend` | src/analyzer/type-generator.ts:67-115 | processing a concatenation yields the first part's errors and outputs before the second's |
| `TypeGeneration.GeneratingIndices` | src/analyzer/type-generator.ts:88-92 | the indices of the entries that generate a file, strictly increasing, and all of them |
| `TypeGeneration.OutputsFollowEntries` | src/analyzer/type-generator.ts:88-92 | the k-th output file is the file of the k-th generating entry |
| `TypeGeneration.OutputsAreNamedAfterEntries` | src/analyzer/type-generator.ts:80-92 | every output is named `dirname(file)/__generated__/dasherize(name).ts` after an entry that generated a file |
| `TypeGeneration.EntriesWithoutDocumentContributeNothing` | src/analyzer/type-generator.ts:68 | dropping the entries without a document changes neither errors nor outputs |
| `TypeGeneration.ComplexEntryReportsOnce` | src/analyzer/type-generator.ts:70-79 | a `complex` entry adds exactly its one error and no output, wherever it stands |
| `TypeGeneration.GeneratedEntryOutputsOnce` | src/analyzer/type-generator.ts:88-92 | an entry whose visit succeeds adds exactly its one output file and no error, wherever it stands |
| `TypeGeneration.TranslatedEntryReportsOnce` | src/analyzer/type-generator.ts:99-109 | a located typing error outside other templates adds exactly its translated error and no output, wherever it stands |
| `TypeGeneration.SuppressedEntryContributesNothing` | src/analyzer/type-generator.ts:99-102 | an entry whose typing error starts in another expression adds neither an error nor an output |

## Left out

- `isTemplateLiteralTypeNode` is left out. It only probes which TypeScript version is running.
- `TypeGenVisitor`, `mergeAddons`, `createOutputSource` and the TypeScript printer
  are left out because their code is not part of this model. Together they are one
  `visit` input that returns the printed file or the exception it threw.
- `dasherize` and `path.dirname` are inputs. `path.resolve` is simplified to string
  concatenation under a directory assumed to be a normalised absolute
  directory, with the root directory `/` handled separately. For relative or
  non-normalised directories only the suffix of the output path is modelled
  faithfully: the working-directory prefix and the normalisation are not.
- `Extractor` is not part of this model. This covers `extract`, `pickupErrors` and
  `getDominantDefinition`, and also the position mapper's own computation. Their
  results are inputs.
- The `_debug` logging calls and `path.relative` are left out. They only produce
  log text.
- Addon factories that throw are not modelled: factories are total functions here.
  In the source such an exception would be caught like one from the visitor.
- `TemplateText.GetSanitizedTemplateText` does not relate its padding to the raw
  source layout. It takes the cooked text of the head and literals as given. The
  width `end - pos + 3` counts trivia before the expression but not trivia before
  the closing `}`. So for `${x }` the padding is one character shorter than the
  source site. The model keeps the source's formula.
- `SyntaxTree.FindNodeUnique` assumes nested, non-overlapping child ranges, as a
  parser produces them. `findNode` itself is modelled for any tree.
- The rest of the Analyzer is left out: the schema manager, validation, the
  markdown report and the manifest. None of them is part of the two pieces modelled.

=== FILE: common.dfy ===
/** Small shared vocabulary: JavaScript's `undefined` and thrown exceptions
    are modelled as ordinary values so that every operation is total. */
module Common {

  /** A value that may be absent (`T | undefined` in the source). */
  datatype Option<+T> = None | Some(value: T) {

    /** `x ?? d`: the value if present, the default otherwise. */
    function GetOr(default: T): T {
      match this
      case Some(v) => v
      case None => default
    }

    /** `a || b` on optional objects, which are always truthy when present. */
    function OrElse(other: Option<T>): Option<T> {
      if Some? then this else other
    }
  }

  /** Either a normal result or the exception that escaped the call. */
  datatype Result<+R, +E> = Success(value: R) | Failure(error: E)

  /** JavaScript truthiness of an optional string: `undefined` and `""` are falsy. */
  predicate Truthy(s: Option<string>) {
    s.Some? && s.value != ""
  }
}

=== FILE: imports.dfy ===
/** Import-declaration helpers of src/ts-ast-util/utilily-functions.ts:
    recognising an import by module and binding name, merging two imports of
    the same module and removing bindings by name. The TypeScript nodes are
    plain records here and `astf.update*` is record construction. */
module Imports {
  import opened Common

  /** One `propertyName as name` element of `import { ... }`; only the local
      `name` takes part in matching and removal. */
  datatype ImportSpecifier = ImportSpecifier(isTypeOnly: bool, propertyName: Option<string>, name: string)

  /** `* as name` or `{ elements }`. */
  datatype NamedImportBindings =
    | NamespaceImport(name: string)
    | NamedImports(elements: seq<ImportSpecifier>)

  /** `import type? name?, namedBindings? from ...` */
  datatype ImportClause = ImportClause(isTypeOnly: bool, name: Option<string>, namedBindings: Option<NamedImportBindings>)

  /** The module specifier; any expression that is not string-literal-like
      never matches a module name. */
  datatype ModuleSpecifier = StringLiteralLike(text: string) | OtherExpression

  /** An import declaration; `modifiers` are the keyword texts and
      `attributes` the `with { ... }` clause, both possibly absent. */
  datatype ImportDeclaration = ImportDeclaration(
    modifiers: Option<seq<string>>,
    importClause: Option<ImportClause>,
    moduleSpecifier: ModuleSpecifier,
    attributes: Option<string>)

  /** Any syntax node offered to the matcher. */
  datatype Statement = ImportStatement(declaration: ImportDeclaration) | OtherStatement

  /** The `{ isDefault, name, from }` argument of the matcher. */
  datatype ImportCondition = ImportCondition(isDefault: Option<bool>, name: Option<string>, from: Option<string>)

  // ---------------------------------------------------------------------
  // Names bound by an import
  // ---------------------------------------------------------------------

  function ElementNames(elements: seq<ImportSpecifier>): set<string> {
    set e | e in elements :: e.name
  }

  /** The local names a binding introduces. */
  function BindingNames(b: Option<NamedImportBindings>): set<string> {
    match b
    case None => {}
    case Some(NamespaceImport(n)) => {n}
    case Some(NamedImports(es)) => ElementNames(es)
  }

  /** The local name a namespace binding introduces, which removal never touches. */
  function NamespaceNames(b: Option<NamedImportBindings>): set<string> {
    if b.Some? && b.value.NamespaceImport? then {b.value.name} else {}
  }

  function ClauseNames(c: Option<ImportClause>): set<string> {
    match c
    case None => {}
    case Some(clause) =>
      (if clause.name.Some? then {clause.name.value} else {}) + BindingNames(clause.namedBindings)
  }

  function DeclarationNames(d: Option<ImportDeclaration>): set<string> {
    if d.Some? then ClauseNames(d.value.importClause) else {}
  }

  predicate HasNamespace(c: Option<ImportClause>) {
    c.Some? && c.value.namedBindings.Some? && c.value.namedBindings.value.NamespaceImport?
  }

  function AsSet(names: seq<string>): set<string> {
    set n | n in names
  }

  // ---------------------------------------------------------------------
  // isImportDeclarationWithCondition
  // ---------------------------------------------------------------------

  /** `from` is unconstrained (falsy) or equals the module specifier's text. */
  predicate FromMatches(d: ImportDeclaration, from: Option<string>) {
    !Truthy(from) || (d.moduleSpecifier.StringLiteralLike? && d.moduleSpecifier.text == from.value)
  }

  /** A named or namespace binding introduces `name`. */
  predicate BindsName(b: NamedImportBindings, name: string) {
    match b
    case NamespaceImport(n) => n == name
    case NamedImports(es) => exists i :: 0 <= i < |es| && es[i].name == name
  }

  predicate DefaultMatches(c: ImportClause, cond: ImportCondition) {
    cond.isDefault != Some(false) && c.name == cond.name
  }

  predicate BindingMatches(c: ImportClause, cond: ImportCondition) {
    cond.isDefault != Some(true) && cond.name.Some? && c.namedBindings.Some? && BindsName(c.namedBindings.value, cond.name.value)
  }

  /** Whether `node` imports `from` and/or binds `name`; `isDefault` picks the
      default name only (`true`), the named or namespace bindings only
      (`false`), or either (absent). */
  function IsImportDeclarationWithCondition(node: Statement, cond: ImportCondition): (r: bool)
    ensures !Truthy(cond.name) && !Truthy(cond.from) ==> !r
    ensures node.OtherStatement? ==> !r
    ensures r ==> node.ImportStatement? && FromMatches(node.declaration, cond.from)
    ensures node.ImportStatement? && Truthy(cond.from) && FromMatches(node.declaration, cond.from) && !Truthy(cond.name) ==> r
    ensures node.ImportStatement? && Truthy(cond.name) && node.declaration.importClause.None? ==> !r
    ensures node.ImportStatement? && Truthy(cond.name) && node.declaration.importClause.Some? ==>
      (r <==> FromMatches(node.declaration, cond.from) &&
              (DefaultMatches(node.declaration.importClause.value, cond) ||
               BindingMatches(node.declaration.importClause.value, cond)))
  {
    if !Truthy(cond.name) && !Truthy(cond.from) then false
    else if node.OtherStatement? then false
    else
      var d := node.declaration;
      if Truthy(cond.from) && !(d.moduleSpecifier.StringLiteralLike? && d.moduleSpecifier.text == cond.from.value) then false
      else if !Truthy(cond.name) then true
      else if d.importClause.None? then false
      else
        var clause := d.importClause.value;
        var byDefault := cond.isDefault != Some(false) && clause.name == cond.name;
        var byBinding :=
          && cond.isDefault != Some(true)
          && clause.namedBindings.Some?
          && (match clause.namedBindings.value
              case NamedImports(es) => exists i :: 0 <= i < |es| && es[i].name == cond.name.value
              case NamespaceImport(n) => n == cond.name.value);
        byDefault || byBinding
  }

  /** With `isDefault` absent the matcher accepts exactly what the default-only
      or the bindings-only matcher accepts. */
  lemma EitherKindMatches(node: Statement, name: Option<string>, from: Option<string>)
    requires Truthy(name)
    ensures IsImportDeclarationWithCondition(node, ImportCondition(None, name, from)) <==>
      (IsImportDeclarationWithCondition(node, ImportCondition(Some(true), name, from)) ||
       IsImportDeclarationWithCondition(node, ImportCondition(Some(false), name, from)))
  {
  }

  // ---------------------------------------------------------------------
  // Merging
  // ---------------------------------------------------------------------

  /** `mergeNamedBinding`: absent only when both are; one-sided merges return
      the present side; a namespace import on either side leaves `base`;
      otherwise `base`'s elements followed by `head`'s. */
  function MergeNamedBinding(base: Option<NamedImportBindings>, head: Option<NamedImportBindings>): (r: Option<NamedImportBindings>)
    ensures r.None? <==> base.None? && head.None?
    ensures base.None? ==> r == head
    ensures head.None? ==> r == base
    ensures base.Some? && head.Some? && (base.value.NamespaceImport? || head.value.NamespaceImport?) ==> r == base
    ensures base.Some? && head.Some? && base.value.NamedImports? && head.value.NamedImports? ==>
      r.Some? && r.value.NamedImports? &&
      |r.value.elements| == |base.value.elements| + |head.value.elements| &&
      r.value.elements[..|base.value.elements|] == base.value.elements &&
      r.value.elements[|base.value.elements|..] == head.value.elements
  {
    if base.None? && head.None? then None
    else if base.None? then head
    else if head.None? then base
    else if base.value.NamespaceImport? || head.value.NamespaceImport? then base
    else Some(NamedImports(base.value.elements + head.value.elements))
  }

  /** Without namespace imports, merging binds exactly the names of both sides. */
  lemma MergeNamedBindingNames(base: Option<NamedImportBindings>, head: Option<NamedImportBindings>)
    requires !(base.Some? && base.value.NamespaceImport?) && !(head.Some? && head.value.NamespaceImport?)
    ensures BindingNames(MergeNamedBinding(base, head)) == BindingNames(base) + BindingNames(head)
  {
  }

  /** `mergeImportClause`: absent only when both are; one-sided merges return
      the present side; otherwise `head`'s default name if it has one (else
      `base`'s), the merged bindings, and type-only only when both are. */
  function MergeImportClause(base: Option<ImportClause>, head: Option<ImportClause>): (r: Option<ImportClause>)
    ensures r.None? <==> base.None? && head.None?
    ensures base.None? ==> r == head
    ensures head.None? ==> r == base
    ensures base.Some? && head.Some? ==>
      && r.Some?
      && (r.value.isTypeOnly <==> base.value.isTypeOnly && head.value.isTypeOnly)
      && r.value.name == (if head.value.name.Some? then head.value.name else base.value.name)
      && r.value.namedBindings == MergeNamedBinding(base.value.namedBindings, head.value.namedBindings)
  {
    if base.None? && head.None? then None
    else if base.None? then head
    else if head.None? then base
    else
      var name := head.value.name.OrElse(base.value.name);
      var namedBindings := MergeNamedBinding(base.value.namedBindings, head.value.namedBindings);
      var isTypeOnly := base.value.isTypeOnly && head.value.isTypeOnly;
      Some(ImportClause(isTypeOnly, name, namedBindings))
  }

  /** Both module specifiers are string literals with the same text. */
  predicate SameModule(base: ImportDeclaration, head: ImportDeclaration) {
    && base.moduleSpecifier.StringLiteralLike?
    && head.moduleSpecifier.StringLiteralLike?
    && base.moduleSpecifier.text == head.moduleSpecifier.text
  }

  /** `mergeImportDeclarationsWithSameModules`: `base` unchanged unless both
      import the same module; then `head`'s modifiers if present (else
      `base`'s), the merged clause, `base`'s specifier and no attributes. */
  function MergeImportDeclarationsWithSameModules(base: ImportDeclaration, head: ImportDeclaration): (r: ImportDeclaration)
    ensures !SameModule(base, head) ==> r == base
    ensures SameModule(base, head) ==>
      && r.moduleSpecifier == base.moduleSpecifier
      && r.modifiers == (if head.modifiers.Some? then head.modifiers else base.modifiers)
      && r.importClause == MergeImportClause(base.importClause, head.importClause)
      && r.attributes.None?
  {
    if !base.moduleSpecifier.StringLiteralLike? || !head.moduleSpecifier.StringLiteralLike? then base
    else if base.moduleSpecifier.text != head.moduleSpecifier.text then base
    else
      var modifiers := head.modifiers.OrElse(base.modifiers);
      var importClause := MergeImportClause(base.importClause, head.importClause);
      ImportDeclaration(modifiers, importClause, base.moduleSpecifier, None)
  }

  /** Merging two imports of one module without namespace imports, where at
      most one side has a default name, binds exactly the names of both. */
  lemma MergeDeclarationNames(base: ImportDeclaration, head: ImportDeclaration)
    requires SameModule(base, head)
    requires !HasNamespace(base.importClause) && !HasNamespace(head.importClause)
    requires !(base.importClause.Some? && base.importClause.value.name.Some? &&
               head.importClause.Some? && head.importClause.value.name.Some?)
    ensures DeclarationNames(Some(MergeImportDeclarationsWithSameModules(base, head))) ==
      DeclarationNames(Some(base)) + DeclarationNames(Some(head))
  {
  }

  /** A merged import still matches every name either side matched, provided
      no namespace import is involved and `head` brings no default name that
      displaces a different default name of `base`'s. */
  lemma MergeKeepsMatch(base: ImportDeclaration, head: ImportDeclaration, cond: ImportCondition)
    requires SameModule(base, head)
    requires !HasNamespace(base.importClause) && !HasNamespace(head.importClause)
    requires !(base.importClause.Some? && base.importClause.value.name.Some? &&
               head.importClause.Some? && head.importClause.value.name.Some? &&
               base.importClause.value.name != head.importClause.value.name)
    requires IsImportDeclarationWithCondition(ImportStatement(base), cond) ||
             IsImportDeclarationWithCondition(ImportStatement(head), cond)
    ensures IsImportDeclarationWithCondition(ImportStatement(MergeImportDeclarationsWithSameModules(base, head)), cond)
  {
  }

  // ---------------------------------------------------------------------
  // Removal
  // ---------------------------------------------------------------------

  /** The elements whose local name is not listed, in their original order. */
  function WithoutNames(elements: seq<ImportSpecifier>, names: seq<string>): (r: seq<ImportSpecifier>)
    ensures |r| <= |elements|
    ensures forall e :: e in r <==> e in elements && e.name !in names
  {
    if |elements| == 0 then []
    else
      (if elements[0].name in names then [] else [elements[0]]) + WithoutNames(elements[1..], names)
  }

  lemma {:induction false} WithoutNamesIdempotent(elements: seq<ImportSpecifier>, names: seq<string>)
    ensures WithoutNames(WithoutNames(elements, names), names) == WithoutNames(elements, names)
    decreases elements
  {
    if |elements| > 0 {
      WithoutNamesIdempotent(elements[1..], names);
      var rest := WithoutNames(elements[1..], names);
      if elements[0].name in names {
        assert WithoutNames(elements, names) == rest;
      } else {
        assert WithoutNames(elements, names) == [elements[0]] + rest;
        assert ([elements[0]] + rest)[1..] == rest;
      }
    }
  }

  lemma {:induction false} WithoutNamesAppend(a: seq<ImportSpecifier>, b: seq<ImportSpecifier>, names: seq<string>)
    ensures WithoutNames(a + b, names) == WithoutNames(a, names) + WithoutNames(b, names)
    decreases a
  {
    if |a| == 0 {
      assert a + b == b;
    } else {
      assert (a + b)[1..] == a[1..] + b;
      WithoutNamesAppend(a[1..], b, names);
    }
  }

  lemma {:induction false} WithoutNamesUnlisted(elements: seq<ImportSpecifier>, names: seq<string>)
    requires ElementNames(elements) !! AsSet(names)
    ensures WithoutNames(elements, names) == elements
    decreases elements
  {
    if |elements| > 0 {
      assert elements[0].name in ElementNames(elements);
      assert ElementNames(elements[1..]) <= ElementNames(elements);
      WithoutNamesUnlisted(elements[1..], names);
      assert [elements[0]] + elements[1..] == elements;
    }
  }

  /** `removeFromNamedBinding`: a namespace import is kept as is; named
      imports lose exactly the listed names and vanish when none remain. */
  function RemoveFromNamedBinding(base: Option<NamedImportBindings>, names: seq<string>): (r: Option<NamedImportBindings>)
    ensures base.None? ==> r.None?
    ensures base.Some? && base.value.NamespaceImport? ==> r == base
    ensures base.Some? && base.value.NamedImports? ==>
      (r.None? <==> forall e :: e in base.value.elements ==> e.name in names)
    ensures r.Some? && r.value.NamedImports? ==>
      base.Some? && base.value.NamedImports? &&
      forall e :: e in r.value.elements <==> e in base.value.elements && e.name !in names
    ensures base.Some? && base.value.NamedImports? && r.Some? ==>
      r == Some(NamedImports(WithoutNames(base.value.elements, names)))
  {
    if base.None? then None
    else if base.value.NamespaceImport? then base
    else
      var elements := WithoutNames(base.value.elements, names);
      if |elements| == 0 then None
      else
        assert elements[0] in elements;
        Some(NamedImports(elements))
  }

  /** `removeFromImportClause`: the default name goes when listed, the
      bindings lose the listed names, `isTypeOnly` is kept, and a clause left
      with neither a name nor bindings vanishes. */
  function RemoveFromImportClause(base: Option<ImportClause>, names: seq<string>): (r: Option<ImportClause>)
    ensures base.None? ==> r.None?
    ensures base.Some? ==>
      var bindings := RemoveFromNamedBinding(base.value.namedBindings, names);
      var name := if base.value.name.Some? && base.value.name.value in names then None else base.value.name;
      && (r.None? <==> name.None? && bindings.None?)
      && (r.Some? ==> r.value == ImportClause(base.value.isTypeOnly, name, bindings))
  {
    if base.None? then None
    else
      var namedBindings := RemoveFromNamedBinding(base.value.namedBindings, names);
      var nameIdentifier := if base.value.name.Some? && base.value.name.value in names then None else base.value.name;
      if nameIdentifier.None? && namedBindings.None? then None
      else Some(ImportClause(base.value.isTypeOnly, nameIdentifier, namedBindings))
  }

  /** `removeAliasFromImportDeclaration`: absent when the clause vanishes;
      otherwise the same modifiers and specifier, the reduced clause and no
      attributes. */
  function RemoveAliasFromImportDeclaration(base: ImportDeclaration, names: seq<string>): (r: Option<ImportDeclaration>)
    ensures r.None? <==> RemoveFromImportClause(base.importClause, names).None?
    ensures r.Some? ==>
      && r.value.modifiers == base.modifiers
      && r.value.moduleSpecifier == base.moduleSpecifier
      && r.value.importClause == RemoveFromImportClause(base.importClause, names)
      && r.value.attributes.None?
  {
    var importClause := RemoveFromImportClause(base.importClause, names);
    if importClause.None? then None
    else Some(ImportDeclaration(base.modifiers, importClause, base.moduleSpecifier, None))
  }

  /** Removal drops exactly the listed names, except that a namespace import's
      name survives. */
  lemma RemoveAliasNames(base: ImportDeclaration, names: seq<string>)
    ensures DeclarationNames(RemoveAliasFromImportDeclaration(base, names)) ==
      (DeclarationNames(Some(base)) - AsSet(names)) + NamespaceNames(if base.importClause.Some? then base.importClause.value.namedBindings else None)
  {
  }

  /** Removing the same names twice changes nothing more. */
  lemma RemoveAliasIdempotent(base: ImportDeclaration, names: seq<string>)
    requires RemoveAliasFromImportDeclaration(base, names).Some?
    ensures RemoveAliasFromImportDeclaration(RemoveAliasFromImportDeclaration(base, names).value, names) ==
      RemoveAliasFromImportDeclaration(base, names)
  {
    var c := base.importClause.value;
    if c.namedBindings.Some? && c.namedBindings.value.NamedImports? {
      WithoutNamesIdempotent(c.namedBindings.value.elements, names);
    }
  }

  /** Removing names no clause binds keeps the import as it was (its
      attributes aside), as long as any named-import list is non-empty; an
      empty `{}` is dropped even then. */
  lemma RemoveUnlistedKeeps(base: ImportDeclaration, names: seq<string>)
    requires base.importClause.Some?
    requires base.importClause.value.name.Some? || base.importClause.value.namedBindings.Some?
    requires ClauseNames(base.importClause) !! AsSet(names)
    requires base.importClause.value.namedBindings.Some? && base.importClause.value.namedBindings.value.NamedImports? ==>
      |base.importClause.value.namedBindings.value.elements| > 0
    ensures RemoveAliasFromImportDeclaration(base, names) == Some(base.(attributes := None))
  {
    var c := base.importClause.value;
    if c.namedBindings.Some? && c.namedBindings.value.NamedImports? {
      var es := c.namedBindings.value.elements;
      WithoutNamesUnlisted(es, names);
    }
  }

  /** After removing `name`, the import no longer matches it, unless it is the
      name of a namespace import, which removal leaves alone. */
  lemma RemoveDefeatsMatch(base: ImportDeclaration, names: seq<string>, cond: ImportCondition)
    requires Truthy(cond.name) && cond.name.value in names
    requires RemoveAliasFromImportDeclaration(base, names).Some?
    requires !(HasNamespace(base.importClause) && base.importClause.value.namedBindings.value.name == cond.name.value)
    ensures !IsImportDeclarationWithCondition(ImportStatement(RemoveAliasFromImportDeclaration(base, names).value), cond)
  {
  }

  /** Removal distributes over merging of named imports: removing from the
      merge is merging what is left of each side. */
  lemma RemoveDistributesOverMerge(base: Option<NamedImportBindings>, head: Option<NamedImportBindings>, names: seq<string>)
    requires !(base.Some? && base.value.NamespaceImport?) && !(head.Some? && head.value.NamespaceImport?)
    ensures RemoveFromNamedBinding(MergeNamedBinding(base, head), names) ==
      MergeNamedBinding(RemoveFromNamedBinding(base, names), RemoveFromNamedBinding(head, names))
  {
    if base.Some? && head.Some? {
      var bes, hes := base.value.elements, head.value.elements;
      WithoutNamesAppend(bes, hes, names);
      var bk, hk := WithoutNames(bes, names), WithoutNames(hes, names);
      if |bk| == 0 {
        assert bk + hk == hk;
      } else if |hk| == 0 {
        assert bk + hk == bk;
      }
    }
  }
}

=== FILE: syntax_tree.dfy ===
/** Position lookup and conditional collection over a host-language syntax
    tree (`findNode` and `findAllNodes` of src/ts-ast-util/utilily-functions.ts).
    A node is reduced to its `[start, end)` range and its children in the
    order `ts.forEachChild` visits them. */
module SyntaxTree {
  import opened Common

  datatype Node = Node(start: int, end: int, children: seq<Node>)

  /** `position >= node.getStart() && position < node.getEnd()` */
  predicate Contains(n: Node, position: int) {
    n.start <= position < n.end
  }

  predicate NoChildContains(n: Node, position: int) {
    forall i :: 0 <= i < |n.children| ==> !Contains(n.children[i], position)
  }

  /** Every node of the tree rooted at `n`, in pre-order. */
  function Subtrees(n: Node): (r: seq<Node>)
    ensures |r| >= 1 && r[0] == n
    decreases n
  {
    [n] + SubtreesOf(n.children)
  }

  function SubtreesOf(cs: seq<Node>): seq<Node>
    decreases cs
  {
    if |cs| == 0 then [] else Subtrees(cs[0]) + SubtreesOf(cs[1..])
  }

  lemma {:induction false} SubtreesOfChild(cs: seq<Node>, i: int, m: Node)
    requires 0 <= i < |cs| && m in Subtrees(cs[i])
    ensures m in SubtreesOf(cs)
    decreases i
  {
    if i > 0 {
      SubtreesOfChild(cs[1..], i - 1, m);
    }
  }

  lemma {:induction false} SubtreesOfMember(cs: seq<Node>, m: Node) returns (i: int)
    requires m in SubtreesOf(cs)
    ensures 0 <= i < |cs| && m in Subtrees(cs[i])
    decreases cs
  {
    if m in Subtrees(cs[0]) {
      i := 0;
    } else {
      var j := SubtreesOfMember(cs[1..], m);
      i := j + 1;
    }
  }

  // ---------------------------------------------------------------------
  // findNode
  // ---------------------------------------------------------------------

  /** The child `ts.forEachChild(node, find)` stops at: the first one in
      child order whose range contains `position`. */
  function FirstContaining(children: seq<Node>, position: int): (r: Option<nat>)
    ensures r.Some? ==> r.value < |children| && Contains(children[r.value], position)
    ensures r.Some? ==> forall j :: 0 <= j < r.value ==> !Contains(children[j], position)
    ensures r.None? ==> forall j :: 0 <= j < |children| ==> !Contains(children[j], position)
  {
    if |children| == 0 then None
    else if Contains(children[0], position) then Some(0)
    else
      match FirstContaining(children[1..], position)
      case None => None
      case Some(i) => Some(i + 1)
  }

  /** The node `findNode` returns: absent exactly when the root does not
      contain `position`; otherwise a node containing it none of whose
      children contains it. */
  function FindNode(node: Node, position: int): (r: Option<Node>)
    ensures r.None? <==> !Contains(node, position)
    ensures r.Some? ==> Contains(r.value, position) && NoChildContains(r.value, position)
    decreases node
  {
    if !Contains(node, position) then None
    else
      match FirstContaining(node.children, position)
      case None => Some(node)
      case Some(i) => FindNode(node.children[i], position)
  }

  /** The node found belongs to the searched tree. */
  lemma {:induction false} FindNodeInTree(root: Node, position: int)
    ensures FindNode(root, position).Some? ==> FindNode(root, position).value in Subtrees(root)
    decreases root
  {
    if Contains(root, position) {
      match FirstContaining(root.children, position)
      case None =>
      case Some(i) =>
        FindNodeInTree(root.children[i], position);
        SubtreesOfChild(root.children, i, FindNode(root, position).value);
    }
  }

  /** A tree as a parser produces it: every range is well formed, children lie
      inside their parent and siblings do not overlap, in source order. */
  ghost predicate WellFormed(n: Node)
    decreases n
  {
    && n.start <= n.end
    && (forall i :: 0 <= i < |n.children| ==> n.start <= n.children[i].start && n.children[i].end <= n.end)
    && (forall j, k :: 0 <= j < k < |n.children| ==> n.children[j].end <= n.children[k].start)
    && (forall i :: 0 <= i < |n.children| ==> WellFormed(n.children[i]))
  }

  lemma {:induction false} WithinRange(root: Node, m: Node)
    requires WellFormed(root) && m in Subtrees(root)
    ensures root.start <= m.start && m.end <= root.end
    decreases root
  {
    if m != root {
      var i := SubtreesOfMember(root.children, m);
      WithinRange(root.children[i], m);
    }
  }

  /** In a well-formed tree, `findNode` returns THE innermost node at
      `position`: any node of the tree that contains the position while none
      of its children does is the one found. */
  lemma {:induction false} FindNodeUnique(root: Node, position: int, m: Node)
    requires WellFormed(root)
    requires m in Subtrees(root) && Contains(m, position) && NoChildContains(m, position)
    ensures FindNode(root, position) == Some(m)
    decreases root
  {
    if m == root {
      assert FirstContaining(root.children, position).None?;
    } else {
      var j := SubtreesOfMember(root.children, m);
      var c := root.children[j];
      WithinRange(c, m);
      assert Contains(c, position);
      assert Contains(root, position);
      var first := FirstContaining(root.children, position);
      assert first.Some?;
      assert first.value == j;
      FindNodeUnique(c, position, m);
    }
  }

  // ---------------------------------------------------------------------
  // findAllNodes
  // ---------------------------------------------------------------------

  /** What `cond` returns for a node: a falsy value, `true`, or some other
      truthy value to be recorded in the node's place. */
  datatype Hit<+S> = Miss | HitNode | HitValue(value: S)

  /** An entry of `findAllNodes`' result: the node itself or `cond`'s value. */
  datatype Found<+S> = FoundNode(node: Node) | FoundValue(value: S)

  /** `hit === true ? node : hit` */
  function Record<S>(n: Node, h: Hit<S>): (r: Found<S>)
    requires !h.Miss?
    ensures h.HitNode? ==> r == FoundNode(n)
    ensures h.HitValue? ==> r == FoundValue(h.value)
  {
    if h.HitNode? then FoundNode(n) else FoundValue(h.value)
  }

  function FindAllNodes<S>(n: Node, cond: Node -> Hit<S>): seq<Found<S>>
    decreases n
  {
    var hit := cond(n);
    if !hit.Miss? then [Record(n, hit)] else FindAllIn(n.children, cond)
  }

  function FindAllIn<S>(cs: seq<Node>, cond: Node -> Hit<S>): seq<Found<S>>
    decreases cs
  {
    if |cs| == 0 then [] else FindAllNodes(cs[0], cond) + FindAllIn(cs[1..], cond)
  }

  /** `m` is examined by the traversal from `root`: it is reached without
      passing through a node for which `cond` was truthy. */
  ghost predicate Examined<S>(root: Node, m: Node, cond: Node -> Hit<S>)
    decreases root
  {
    || m == root
    || (cond(root).Miss? && exists i :: 0 <= i < |root.children| && Examined(root.children[i], m, cond))
  }

  /** Every entry of the result records an examined hit. */
  lemma {:induction false} FindAllNodesSound<S>(root: Node, cond: Node -> Hit<S>, k: int)
    requires 0 <= k < |FindAllNodes(root, cond)|
    ensures exists m :: Examined(root, m, cond) && !cond(m).Miss? && FindAllNodes(root, cond)[k] == Record(m, cond(m))
    decreases root
  {
    if cond(root).Miss? {
      var i, m := FindAllInSound(root.children, cond, k);
      assert Examined(root, m, cond);
    } else {
      assert Examined(root, root, cond);
    }
  }

  lemma {:induction false} FindAllInSound<S>(cs: seq<Node>, cond: Node -> Hit<S>, k: int) returns (i: int, m: Node)
    requires 0 <= k < |FindAllIn(cs, cond)|
    ensures 0 <= i < |cs| && Examined(cs[i], m, cond) && !cond(m).Miss?
    ensures FindAllIn(cs, cond)[k] == Record(m, cond(m))
    decreases cs
  {
    var first := FindAllNodes(cs[0], cond);
    if k < |first| {
      FindAllNodesSound(cs[0], cond, k);
      i := 0;
      m :| Examined(cs[0], m, cond) && !cond(m).Miss? && first[k] == Record(m, cond(m));
    } else {
      var j;
      j, m := FindAllInSound(cs[1..], cond, k - |first|);
      i := j + 1;
    }
  }

  /** Every examined hit is recorded. Together with FindAllNodesSound: the
      result holds exactly the hits not lying below another hit. */
  lemma {:induction false} FindAllNodesComplete<S>(root: Node, cond: Node -> Hit<S>, m: Node)
    requires Examined(root, m, cond) && !cond(m).Miss?
    ensures Record(m, cond(m)) in FindAllNodes(root, cond)
    decreases root
  {
    if m == root {
      assert FindAllNodes(root, cond) == [Record(m, cond(m))];
    } else {
      var i :| 0 <= i < |root.children| && Examined(root.children[i], m, cond);
      FindAllNodesComplete(root.children[i], cond, m);
      FindAllInMember(root.children, cond, i, Record(m, cond(m)));
    }
  }

  lemma {:induction false} FindAllInMember<S>(cs: seq<Node>, cond: Node -> Hit<S>, i: int, f: Found<S>)
    requires 0 <= i < |cs| && f in FindAllNodes(cs[i], cond)
    ensures f in FindAllIn(cs, cond)
    decreases i
  {
    if i > 0 {
      FindAllInMember(cs[1..], cond, i - 1, f);
    }
  }

  /** A node for which `cond` is truthy is recorded alone: nothing below it is
      looked at. */
  lemma FindAllNodesStopsAtHit<S>(root: Node, cond: Node -> Hit<S>)
    requires !cond(root).Miss?
    ensures FindAllNodes(root, cond) == [Record(root, cond(root))]
  {
  }

  /** Reference definition: the hits of a flat node sequence, in order, with
      no pruning. */
  function HitsIn<S>(s: seq<Node>, cond: Node -> Hit<S>): seq<Found<S>>
  {
    if |s| == 0 then []
    else (if cond(s[0]).Miss? then [] else [Record(s[0], cond(s[0]))]) + HitsIn(s[1..], cond)
  }

  lemma {:induction false} HitsInAppend<S>(a: seq<Node>, b: seq<Node>, cond: Node -> Hit<S>)
    ensures HitsIn(a + b, cond) == HitsIn(a, cond) + HitsIn(b, cond)
    decreases a
  {
    if |a| == 0 {
      assert a + b == b;
    } else {
      assert (a + b)[1..] == a[1..] + b;
      HitsInAppend(a[1..], b, cond);
    }
  }

  lemma {:induction false} HitsInNone<S>(s: seq<Node>, cond: Node -> Hit<S>)
    requires forall d :: d in s ==> cond(d).Miss?
    ensures HitsIn(s, cond) == []
    decreases s
  {
    if |s| > 0 {
      HitsInNone(s[1..], cond);
    }
  }

  /** No hit among `s` has a hit below it. */
  ghost predicate NoNestedHits<S>(s: seq<Node>, cond: Node -> Hit<S>) {
    forall m :: m in s && !cond(m).Miss? ==> forall d :: d in SubtreesOf(m.children) ==> cond(d).Miss?
  }

  lemma NoNestedHitsSplit<S>(a: seq<Node>, b: seq<Node>, cond: Node -> Hit<S>)
    requires NoNestedHits(a + b, cond)
    ensures NoNestedHits(a, cond) && NoNestedHits(b, cond)
  {
    forall m | m in a ensures m in a + b { }
    forall m | m in b ensures m in a + b { }
  }

  /** When hits never nest, `findAllNodes` returns every hit of the tree in
      pre-order: the pruning only ever skips subtrees without hits. */
  lemma {:induction false} FindAllNodesPreOrder<S>(root: Node, cond: Node -> Hit<S>)
    requires NoNestedHits(Subtrees(root), cond)
    ensures FindAllNodes(root, cond) == HitsIn(Subtrees(root), cond)
    decreases root
  {
    NoNestedHitsSplit([root], SubtreesOf(root.children), cond);
    HitsInAppend([root], SubtreesOf(root.children), cond);
    if cond(root).Miss? {
      FindAllInPreOrder(root.children, cond);
    } else {
      assert root in Subtrees(root);
      HitsInNone(SubtreesOf(root.children), cond);
    }
  }

  lemma {:induction false} FindAllInPreOrder<S>(cs: seq<Node>, cond: Node -> Hit<S>)
    requires NoNestedHits(SubtreesOf(cs), cond)
    ensures FindAllIn(cs, cond) == HitsIn(SubtreesOf(cs), cond)
    decreases cs
  {
    if |cs| > 0 {
      var head, tail := Subtrees(cs[0]), SubtreesOf(cs[1..]);
      NoNestedHitsSplit(head, tail, cond);
      HitsInAppend(head, tail, cond);
      FindAllNodesPreOrder(cs[0], cond);
      FindAllInPreOrder(cs[1..], cond);
    }
  }

  /** `a` is `b` with some elements left out, the rest kept in order. */
  ghost predicate SubseqOf<T>(a: seq<T>, b: seq<T>)
    decreases |b|
  {
    if |a| == 0 then true
    else if |b| == 0 then false
    else (a[0] == b[0] && SubseqOf(a[1..], b[1..])) || SubseqOf(a, b[1..])
  }

  lemma {:induction false} SubseqOfSelf<T>(a: seq<T>)
    ensures SubseqOf(a, a)
    decreases |a|
  {
    if |a| > 0 {
      SubseqOfSelf(a[1..]);
    }
  }

  lemma {:induction false} SubseqOfConcat<T>(a1: seq<T>, b1: seq<T>, a2: seq<T>, b2: seq<T>)
    requires SubseqOf(a1, b1) && SubseqOf(a2, b2)
    ensures SubseqOf(a1 + a2, b1 + b2)
    decreases |b1|
  {
    if |b1| == 0 {
      assert a1 + a2 == a2;
      assert b1 + b2 == b2;
    } else if |a1| > 0 && a1[0] == b1[0] && SubseqOf(a1[1..], b1[1..]) {
      SubseqOfConcat(a1[1..], b1[1..], a2, b2);
      assert (a1 + a2)[1..] == a1[1..] + a2;
      assert (b1 + b2)[1..] == b1[1..] + b2;
    } else {
      assert SubseqOf(a1, b1[1..]);
      SubseqOfConcat(a1, b1[1..], a2, b2);
      assert (b1 + b2)[1..] == b1[1..] + b2;
    }
  }

  /** For every `cond`, `findAllNodes` returns hits in pre-order: its result is
      the pre-order listing of all hits with the ones below another hit left
      out. */
  lemma {:induction false} FindAllNodesInPreOrder<S>(root: Node, cond: Node -> Hit<S>)
    ensures SubseqOf(FindAllNodes(root, cond), HitsIn(Subtrees(root), cond))
    decreases root
  {
    HitsInAppend([root], SubtreesOf(root.children), cond);
    assert [root][1..] == [];
    if cond(root).Miss? {
      FindAllInSubseq(root.children, cond);
      assert HitsIn(Subtrees(root), cond) == HitsIn(SubtreesOf(root.children), cond);
    } else {
      var found := [Record(root, cond(root))];
      SubseqOfSelf(found);
      SubseqOfConcat(found, found, [], HitsIn(SubtreesOf(root.children), cond));
      assert found + [] == found;
    }
  }

  lemma {:induction false} FindAllInSubseq<S>(cs: seq<Node>, cond: Node -> Hit<S>)
    ensures SubseqOf(FindAllIn(cs, cond), HitsIn(SubtreesOf(cs), cond))
    decreases cs
  {
    if |cs| > 0 {
      HitsInAppend(Subtrees(cs[0]), SubtreesOf(cs[1..]), cond);
      FindAllNodesInPreOrder(cs[0], cond);
      FindAllInSubseq(cs[1..], cond);
      SubseqOfConcat(FindAllNodes(cs[0], cond), HitsIn(Subtrees(cs[0]), cond),
        FindAllIn(cs[1..], cond), HitsIn(SubtreesOf(cs[1..]), cond));
    }
  }
}

=== FILE: template_text.dfy ===
/** `getSanitizedTemplateText` of src/ts-ast-util/utilily-functions.ts: the text
    of a template literal with every `${expression}` site replaced by spaces,
    so that an offset in the text is still an offset into the literal. */
module TemplateText {
  import opened Common

  /** One `${expression}literal` part of a template expression: the
      expression's `pos`/`end` and the text of the literal that follows it. */
  datatype TemplateSpan = TemplateSpan(expressionPos: int, expressionEnd: int, literal: string)

  /** The two template node shapes. `start` is `node.getStart()`, the offset
      of the opening backtick; `text` and `head` are absent when the parser
      left them undefined. */
  datatype TemplateNode =
    | NoSubstitutionTemplateLiteral(start: int, text: Option<string>)
    | TemplateExpression(start: int, head: Option<string>, spans: seq<TemplateSpan>)

  datatype SanitizedTemplate = SanitizedTemplate(text: string, sourcePosition: int)

  /** `"${}".length`: the characters of a placeholder beyond its expression. */
  const PlaceholderDelimiters := 3

  /** `''.padEnd(n, ' ')`: `n` spaces, none when `n` is not positive. */
  function Padding(n: int): (r: string)
    ensures |r| == if n <= 0 then 0 else n
    ensures forall k :: 0 <= k < |r| ==> r[k] == ' '
    decreases n
  {
    if n <= 0 then "" else Padding(n - 1) + " "
  }

  /** How many spaces stand for a span's `${expression}`. */
  function PadWidth(span: TemplateSpan): nat {
    var w := span.expressionEnd - span.expressionPos + PlaceholderDelimiters;
    if w <= 0 then 0 else w
  }

  /** The sum over the spans of padding width plus literal length. */
  function SpansLength(spans: seq<TemplateSpan>): nat {
    if |spans| == 0 then 0
    else SpansLength(spans[..|spans| - 1]) + PadWidth(spans[|spans| - 1]) + |spans[|spans| - 1].literal|
  }

  /** A parsed expression never ends before it starts. */
  ghost predicate ParsedSpans(spans: seq<TemplateSpan>) {
    forall i :: 0 <= i < |spans| ==> spans[i].expressionPos <= spans[i].expressionEnd
  }

  /** Reference sum: each `${expression}literal` site is as long as its
      expression plus the three delimiter characters plus its literal. */
  function SiteLengths(spans: seq<TemplateSpan>): int {
    if |spans| == 0 then 0
    else spans[0].expressionEnd - spans[0].expressionPos + 3 + |spans[0].literal| + SiteLengths(spans[1..])
  }

  lemma {:induction false} SpansLengthAppend(a: seq<TemplateSpan>, b: seq<TemplateSpan>)
    ensures SpansLength(a + b) == SpansLength(a) + SpansLength(b)
    decreases |b|
  {
    if |b| == 0 {
      assert a + b == a;
    } else {
      assert (a + b)[..|a + b| - 1] == a + b[..|b| - 1];
      SpansLengthAppend(a, b[..|b| - 1]);
    }
  }

  /** For parsed spans the text grows by exactly each site's length. */
  lemma {:induction false} SpansLengthOfParsed(spans: seq<TemplateSpan>)
    requires ParsedSpans(spans)
    ensures SpansLength(spans) == SiteLengths(spans)
    decreases |spans|
  {
    if |spans| > 0 {
      SpansLengthAppend([spans[0]], spans[1..]);
      assert [spans[0]] + spans[1..] == spans;
      assert [spans[0]][..0] == [];
      SpansLengthOfParsed(spans[1..]);
    }
  }

  /** Where the padding of span `i` starts in the sanitized text. */
  function SpanOffset(head: string, spans: seq<TemplateSpan>, i: int): nat
    requires 0 <= i <= |spans|
  {
    |head| + SpansLength(spans[..i])
  }

  /** Span `i` occupies its place in `text`: its padding, all spaces, followed
      by its literal text. */
  ghost predicate SpanLaidOut(text: string, head: string, spans: seq<TemplateSpan>, i: int)
    requires 0 <= i < |spans|
  {
    var o := SpanOffset(head, spans, i);
    var w := PadWidth(spans[i]);
    && o + w + |spans[i].literal| <= |text|
    && text[o..o + w] == Padding(w)
    && text[o + w..o + w + |spans[i].literal|] == spans[i].literal
  }

  /** Appending span `i`'s padding and literal to a text laid out up to span
      `i` lays it out up to span `i + 1`. */
  lemma AppendSpan(before: string, text: string, head: string, spans: seq<TemplateSpan>, i: int)
    requires 0 <= i < |spans|
    requires |before| == |head| + SpansLength(spans[..i])
    requires before[..|head|] == head
    requires forall j :: 0 <= j < i ==> SpanLaidOut(before, head, spans, j)
    requires text == before + Padding(spans[i].expressionEnd - spans[i].expressionPos + PlaceholderDelimiters) + spans[i].literal
    ensures |text| == |head| + SpansLength(spans[..i + 1])
    ensures text[..|head|] == head
    ensures forall j :: 0 <= j <= i ==> SpanLaidOut(text, head, spans, j)
  {
    assert spans[..i + 1][..i] == spans[..i];
    assert text == before + Padding(PadWidth(spans[i])) + spans[i].literal;
    forall j | 0 <= j < i
      ensures SpanLaidOut(text, head, spans, j)
    {
      assert SpanLaidOut(before, head, spans, j);
      var o := SpanOffset(head, spans, j);
      var w := PadWidth(spans[j]);
      assert text[o..o + w] == before[o..o + w];
      assert text[o + w..o + w + |spans[j].literal|] == before[o + w..o + w + |spans[j].literal|];
    }
    assert SpanOffset(head, spans, i) == |before|;
  }

  /** The sanitized text and the offset just past the opening backtick. A
      no-substitution literal keeps its text (or `""`); a template expression
      is its head followed, span by span, by the span's padding and literal,
      so the text's length is the head's plus every span's padding and
      literal lengths. */
  method GetSanitizedTemplateText(node: TemplateNode) returns (r: SanitizedTemplate)
    ensures r.sourcePosition == node.start + 1
    ensures node.NoSubstitutionTemplateLiteral? ==> r.text == node.text.GetOr("")
    ensures node.TemplateExpression? ==>
      |r.text| == |node.head.GetOr("")| + SpansLength(node.spans)
    ensures node.TemplateExpression? ==>
      |node.head.GetOr("")| <= |r.text| && r.text[..|node.head.GetOr("")|] == node.head.GetOr("")
    ensures node.TemplateExpression? ==>
      forall i :: 0 <= i < |node.spans| ==> SpanLaidOut(r.text, node.head.GetOr(""), node.spans, i)
    ensures node.TemplateExpression? && ParsedSpans(node.spans) ==>
      |r.text| == |node.head.GetOr("")| + SiteLengths(node.spans)
  {
    var sourcePosition := node.start + 1;
    if node.NoSubstitutionTemplateLiteral? {
      return SanitizedTemplate(node.text.GetOr(""), sourcePosition);
    }
    var head := node.head.GetOr("");
    var spans := node.spans;
    var text := head;
    var i := 0;
    while i < |spans|
      invariant 0 <= i <= |spans|
      invariant |text| == |head| + SpansLength(spans[..i])
      invariant text[..|head|] == head
      invariant forall j :: 0 <= j < i ==> SpanLaidOut(text, head, spans, j)
    {
      var span := spans[i];
      var before := text;
      text := text + Padding(span.expressionEnd - span.expressionPos + PlaceholderDelimiters);
      text := text + span.literal;
      AppendSpan(before, text, head, spans, i);
      i := i + 1;
    }
    assert spans[..i] == spans;
    if ParsedSpans(spans) {
      SpansLengthOfParsed(spans);
    }
    r := SanitizedTemplate(text, sourcePosition);
  }
}

=== FILE: type_generation.dfy ===
/** `TypeGenerator.generateTypes` and `createAddon` of
    src/analyzer/type-generator.ts. The extractor's result, the
    dominant-definition classifier, the visitor-and-printer, `dirname` and
    `dasherize` are collaborators passed in; what remains is the per-entry
    decision and the fold that collects errors and output files. */
module TypeGeneration {
  import opened Common

  /** Where a located error points: the host file, its full text and the
      offsets of the underlined range. */
  datatype ErrorContent = ErrorContent(fileName: string, content: string, start: int, end: int)

  /** A reported error: its message and, for an `ErrorWithLocation`, where it is. */
  datatype TsGqlError = TsGqlError(message: string, location: Option<ErrorContent>)

  /** What the position mapper answers for an offset in the document text. */
  datatype SourcePosition = SourcePosition(pos: int, isInOtherExpression: bool)

  /** `loc` of an embedded-language AST node: offsets in the document text. */
  datatype Location = Location(start: int, end: int)

  /** Exceptions escaping the visitor or the printer: a `TypeGenError` carries
      the offending node's location, which the parser may have left undefined. */
  datatype Exception =
    | TypeGenError(message: string, loc: Option<Location>)
    | OtherException(description: string)

  /** `error.node.loc!.start` on an undefined `loc` raises this inside the
      `catch` block, so it escapes `generateTypes`. */
  const LocationDereference := OtherException("TypeError: Cannot read properties of undefined (reading 'start')")

  datatype DefinitionKind = Operation | Fragment | Complex

  /** `getDominantDefinition`'s answer for one document. */
  datatype DominantDefinition = DominantDefinition(kind: DefinitionKind, operationName: Option<string>, fragmentName: Option<string>)

  /** One entry of the extractor's result. `documentNode` is present for a
      successful extraction; `getSourcePosition` is the entry's position
      mapper from document offsets to host-source offsets. */
  datatype FileEntry<D> = FileEntry(
    fileName: string,
    sourceText: string,
    templateStart: int,
    templateEnd: int,
    documentNode: Option<D>,
    getSourcePosition: int -> SourcePosition)

  /** `extract(files, tag)` together with what `pickupErrors` finds in it. */
  datatype ExtractedResult<D> = ExtractedResult(fileEntries: seq<FileEntry<D>>, pickedUpErrors: seq<TsGqlError>)

  /** The schema, represented by its SDL text. */
  datatype Schema = Schema(sdl: string)

  /** The view handed to each addon factory for one generated file. */
  datatype AddonContext = AddonContext(
    schema: Schema,
    outputFileName: string,
    fileName: string,
    sourceText: string,
    templateStart: int,
    templateEnd: int)

  /** The collaborators `generateTypes` calls: `visit` stands for the visitor
      followed by the printer and yields the printed file or what it threw. */
  datatype Collaborators<!D, !A> = Collaborators(
    schema: Schema,
    addonFactories: seq<AddonContext -> A>,
    getDominantDefinition: FileEntry<D> -> DominantDefinition,
    visit: (D, string, seq<A>) -> Result<string, Exception>,
    dirname: string -> string,
    dasherize: string -> string)

  datatype OutputFile = OutputFile(fileName: string, content: string)

  datatype TypegenResult = TypegenResult(errors: seq<TsGqlError>, outputSourceFiles: seq<OutputFile>)

  /** What one file entry contributes. */
  datatype EntryOutcome =
    | Skipped
    | Reported(error: TsGqlError)
    | Generated(file: OutputFile)
    | Suppressed
    | Rethrown(exception: Exception)

  const ComplexOperationsMessage := "This document node has complex operations."

  const GeneratedDirectory := "__generated__"

  const TypeScriptExtension := ".ts"

  // ---------------------------------------------------------------------
  // Naming
  // ---------------------------------------------------------------------

  /** `path.resolve(dir, '__generated__', dashed + '.ts')` for an absolute,
      normalised `dir`; the root directory `/` contributes no separator of
      its own. */
  function OutputFileName(dir: string, dashed: string): (r: string)
    ensures dir != "/" ==> |dir| < |r| && r[..|dir|] == dir && r[|dir|] == '/'
    ensures dir == "/" ==> |r| > 0 && r[0] == '/'
  {
    (if dir == "/" then "" else dir) + "/" + GeneratedDirectory + "/" + dashed + TypeScriptExtension
  }

  /** The output path ends in `__generated__/<dashed>.ts` and is exactly as
      long as the directory plus that suffix, so with `OutputFileName`'s
      `dir/` prefix nothing lies in between; within one directory different
      dasherized names never share an output path. */
  lemma OutputFileNameShape(dir: string, dashed: string, other: string)
    ensures var path := OutputFileName(dir, dashed);
      var suffix := "/" + GeneratedDirectory + "/" + dashed + TypeScriptExtension;
      |suffix| <= |path| && path[|path| - |suffix|..] == suffix
    ensures |OutputFileName(dir, dashed)| ==
      (if dir == "/" then 0 else |dir|) + |"/" + GeneratedDirectory + "/" + dashed + TypeScriptExtension|
    ensures OutputFileName(dir, dashed) == OutputFileName(dir, other) ==> dashed == other
  {
    var path := OutputFileName(dir, dashed);
    var pre := (if dir == "/" then "" else dir) + "/" + GeneratedDirectory + "/";
    assert path == pre + dashed + TypeScriptExtension;
    if path == OutputFileName(dir, other) {
      assert OutputFileName(dir, other) == pre + other + TypeScriptExtension;
      assert |dashed| == |other|;
      assert path[|pre|..|pre| + |dashed|] == dashed;
      assert OutputFileName(dir, other)[|pre|..|pre| + |other|] == other;
    }
  }

  /** The name the output is named after: the fragment's for a fragment,
      the operation's otherwise. */
  function DominantName(d: DominantDefinition): (r: Option<string>)
    ensures d.kind == Fragment ==> r == d.fragmentName
    ensures d.kind != Fragment ==> r == d.operationName
  {
    if d.kind == Fragment then d.fragmentName else d.operationName
  }

  // ---------------------------------------------------------------------
  // createAddon
  // ---------------------------------------------------------------------

  /** The context for one output file and one addon per factory, in factory
      order. */
  function CreateAddon<D, A>(env: Collaborators<D, A>, entry: FileEntry<D>, outputFileName: string): (r: (seq<A>, AddonContext))
    ensures r.1.schema == env.schema && r.1.outputFileName == outputFileName && r.1.fileName == entry.fileName
    ensures r.1.sourceText == entry.sourceText && r.1.templateStart == entry.templateStart && r.1.templateEnd == entry.templateEnd
    ensures |r.0| == |env.addonFactories|
    ensures forall i :: 0 <= i < |r.0| ==> r.0[i] == env.addonFactories[i](r.1)
  {
    var context := AddonContext(env.schema, outputFileName, entry.fileName, entry.sourceText, entry.templateStart, entry.templateEnd);
    (ApplyFactories(env.addonFactories, context), context)
  }

  function ApplyFactories<A>(factories: seq<AddonContext -> A>, context: AddonContext): seq<A> {
    seq(|factories|, i requires 0 <= i < |factories| => factories[i](context))
  }

  // ---------------------------------------------------------------------
  // One file entry
  // ---------------------------------------------------------------------

  /** An entry the visitor is run on: it has a document, a dominant definition
      that is not `complex`, and a (truthy) name to call the output after. */
  predicate Generatable<D, A>(env: Collaborators<D, A>, entry: FileEntry<D>) {
    && entry.documentNode.Some?
    && env.getDominantDefinition(entry).kind != Complex
    && Truthy(DominantName(env.getDominantDefinition(entry)))
  }

  function OutputFileNameOf<D, A>(env: Collaborators<D, A>, entry: FileEntry<D>): string
    requires Generatable(env, entry)
  {
    OutputFileName(env.dirname(entry.fileName), env.dasherize(DominantName(env.getDominantDefinition(entry)).value))
  }

  function VisitOf<D, A>(env: Collaborators<D, A>, entry: FileEntry<D>): Result<string, Exception>
    requires Generatable(env, entry)
  {
    var outputFileName := OutputFileNameOf(env, entry);
    var (addons, _) := CreateAddon(env, entry, outputFileName);
    env.visit(entry.documentNode.value, outputFileName, addons)
  }

  /** The error reported for a `complex` document: the fixed message over the
      whole template literal. */
  function ComplexError<D>(entry: FileEntry<D>): (r: TsGqlError)
    ensures r.message == ComplexOperationsMessage
    ensures r.location.Some? && r.location.value.fileName == entry.fileName && r.location.value.content == entry.sourceText
    ensures r.location.value.start == entry.templateStart && r.location.value.end == entry.templateEnd
  {
    TsGqlError(ComplexOperationsMessage, Some(ErrorContent(entry.fileName, entry.sourceText, entry.templateStart, entry.templateEnd)))
  }

  /** A `TypeGenError` at `loc`, mapped back to the host source; dropped when
      its start lies inside another template's inlined text. */
  function TranslateTypeGenError<D>(entry: FileEntry<D>, message: string, loc: Location): (r: EntryOutcome)
    ensures r.Suppressed? <==> entry.getSourcePosition(loc.start).isInOtherExpression
    ensures r.Reported? ==>
      r.error == TsGqlError(message, Some(ErrorContent(entry.fileName, entry.sourceText,
        entry.getSourcePosition(loc.start).pos, entry.getSourcePosition(loc.end).pos)))
    ensures r.Suppressed? || r.Reported?
  {
    var sourcePosition := entry.getSourcePosition(loc.start);
    if sourcePosition.isInOtherExpression then Suppressed
    else
      var start := sourcePosition.pos;
      var end := entry.getSourcePosition(loc.end).pos;
      Reported(TsGqlError(message, Some(ErrorContent(entry.fileName, entry.sourceText, start, end))))
  }

  /** The body of the `forEach` callback for one entry. */
  function ProcessEntry<D, A>(env: Collaborators<D, A>, entry: FileEntry<D>): (r: EntryOutcome)
    ensures r.Skipped? <==>
      entry.documentNode.None? ||
      (env.getDominantDefinition(entry).kind != Complex && !Truthy(DominantName(env.getDominantDefinition(entry))))
    ensures entry.documentNode.Some? && env.getDominantDefinition(entry).kind == Complex ==> r == Reported(ComplexError(entry))
    ensures r.Generated? ==>
      Generatable(env, entry) && VisitOf(env, entry) == Success(r.file.content) && r.file.fileName == OutputFileNameOf(env, entry)
    ensures r.Suppressed? ==>
      Generatable(env, entry) && VisitOf(env, entry).Failure? && VisitOf(env, entry).error.TypeGenError? &&
      VisitOf(env, entry).error.loc.Some? &&
      entry.getSourcePosition(VisitOf(env, entry).error.loc.value.start).isInOtherExpression
    ensures r.Rethrown? ==>
      Generatable(env, entry) && VisitOf(env, entry).Failure? &&
      (if VisitOf(env, entry).error.TypeGenError? then VisitOf(env, entry).error.loc.None? && r.exception == LocationDereference
       else r.exception == VisitOf(env, entry).error)
    ensures Generatable(env, entry) && VisitOf(env, entry).Success? ==>
      r == Generated(OutputFile(OutputFileNameOf(env, entry), VisitOf(env, entry).value))
    ensures (Generatable(env, entry) && VisitOf(env, entry).Failure? && VisitOf(env, entry).error.TypeGenError? &&
             VisitOf(env, entry).error.loc.Some?) ==>
      r == TranslateTypeGenError(entry, VisitOf(env, entry).error.message, VisitOf(env, entry).error.loc.value)
    ensures (Generatable(env, entry) && VisitOf(env, entry).Failure? && VisitOf(env, entry).error.TypeGenError? &&
             VisitOf(env, entry).error.loc.None?) ==>
      r == Rethrown(LocationDereference)
    ensures Generatable(env, entry) && VisitOf(env, entry).Failure? && VisitOf(env, entry).error.OtherException? ==>
      r == Rethrown(VisitOf(env, entry).error)
  {
    if entry.documentNode.None? then Skipped
    else
      var dominant := env.getDominantDefinition(entry);
      if dominant.kind == Complex then Reported(ComplexError(entry))
      else if !Truthy(DominantName(dominant)) then Skipped
      else
        var outputFileName := OutputFileNameOf(env, entry);
        match VisitOf(env, entry)
        case Success(content) => Generated(OutputFile(outputFileName, content))
        case Failure(TypeGenError(message, Some(loc))) => TranslateTypeGenError(entry, message, loc)
        case Failure(TypeGenError(_, None)) => Rethrown(LocationDereference)
        case Failure(e) => Rethrown(e)
  }

  function ErrorsOf(o: EntryOutcome): (r: seq<TsGqlError>)
    ensures |r| <= 1
  {
    if o.Reported? then [o.error] else []
  }

  function OutputsOf(o: EntryOutcome): (r: seq<OutputFile>)
    ensures |r| <= 1
  {
    if o.Generated? then [o.file] else []
  }

  // ---------------------------------------------------------------------
  // The fold over all entries
  // ---------------------------------------------------------------------

  /** The type-generation errors of the entries, in entry order. */
  function CollectErrors<D, A>(env: Collaborators<D, A>, entries: seq<FileEntry<D>>): seq<TsGqlError>
    decreases |entries|
  {
    if |entries| == 0 then []
    else CollectErrors(env, entries[..|entries| - 1]) + ErrorsOf(ProcessEntry(env, entries[|entries| - 1]))
  }

  /** The generated files of the entries, in entry order. */
  function CollectOutputs<D, A>(env: Collaborators<D, A>, entries: seq<FileEntry<D>>): seq<OutputFile>
    decreases |entries|
  {
    if |entries| == 0 then []
    else CollectOutputs(env, entries[..|entries| - 1]) + OutputsOf(ProcessEntry(env, entries[|entries| - 1]))
  }

  predicate Rethrows<D, A>(env: Collaborators<D, A>, entry: FileEntry<D>) {
    ProcessEntry(env, entry).Rethrown?
  }

  /** `generateTypes`: the extractor's errors followed by the entries'
      type-generation errors, and the generated files, both in entry order;
      or, when some entry's visit throws something that is not collected,
      that exception from the first such entry. */
  method GenerateTypes<D, A>(env: Collaborators<D, A>, extracted: ExtractedResult<D>) returns (r: Result<TypegenResult, Exception>)
    ensures r.Success? <==> forall i :: 0 <= i < |extracted.fileEntries| ==> !Rethrows(env, extracted.fileEntries[i])
    ensures r.Success? ==>
      && r.value.errors == extracted.pickedUpErrors + CollectErrors(env, extracted.fileEntries)
      && r.value.outputSourceFiles == CollectOutputs(env, extracted.fileEntries)
    ensures r.Failure? ==>
      exists i :: 0 <= i < |extracted.fileEntries| &&
        ProcessEntry(env, extracted.fileEntries[i]) == Rethrown(r.error) &&
        forall j :: 0 <= j < i ==> !Rethrows(env, extracted.fileEntries[j])
  {
    var entries := extracted.fileEntries;
    var extractedErrors := extracted.pickedUpErrors;
    var typegenErrors: seq<TsGqlError> := [];
    var outputSourceFiles: seq<OutputFile> := [];
    var i := 0;
    while i < |entries|
      invariant 0 <= i <= |entries|
      invariant forall j :: 0 <= j < i ==> !Rethrows(env, entries[j])
      invariant typegenErrors == CollectErrors(env, entries[..i])
      invariant outputSourceFiles == CollectOutputs(env, entries[..i])
    {
      var outcome := ProcessEntry(env, entries[i]);
      if outcome.Rethrown? {
        return Failure(outcome.exception);
      }
      assert entries[..i + 1][..i] == entries[..i];
      typegenErrors := typegenErrors + ErrorsOf(outcome);
      outputSourceFiles := outputSourceFiles + OutputsOf(outcome);
      i := i + 1;
    }
    assert entries[..i] == entries;
    r := Success(TypegenResult(extractedErrors + typegenErrors, outputSourceFiles));
  }

  // ---------------------------------------------------------------------
  // Properties of the fold
  // ---------------------------------------------------------------------

  /** Each entry adds at most one output file and at most one error. */
  lemma {:induction false} AtMostOnePerEntry<D, A>(env: Collaborators<D, A>, entries: seq<FileEntry<D>>)
    ensures |CollectOutputs(env, entries)| <= |entries|
    ensures |CollectErrors(env, entries)| <= |entries|
    decreases |entries|
  {
    if |entries| > 0 {
      AtMostOnePerEntry(env, entries[..|entries| - 1]);
    }
  }

  /** Processing a concatenation collects the first part's results before the
      second's. */
  lemma {:induction false} CollectAppend<D, A>(env: Collaborators<D, A>, a: seq<FileEntry<D>>, b: seq<FileEntry<D>>)
    ensures CollectErrors(env, a + b) == CollectErrors(env, a) + CollectErrors(env, b)
    ensures CollectOutputs(env, a + b) == CollectOutputs(env, a) + CollectOutputs(env, b)
    decreases |b|
  {
    if |b| == 0 {
      assert a + b == a;
    } else {
      var b' := b[..|b| - 1];
      assert (a + b)[..|a + b| - 1] == a + b';
      assert (a + b)[|a + b| - 1] == b[|b| - 1];
      CollectAppend(env, a, b');
    }
  }

  /** The indices of the entries that generate a file, in increasing order. */
  function GeneratingIndices<D, A>(env: Collaborators<D, A>, entries: seq<FileEntry<D>>): (r: seq<nat>)
    ensures forall k :: 0 <= k < |r| ==> r[k] < |entries| && ProcessEntry(env, entries[r[k]]).Generated?
    ensures forall k, l :: 0 <= k < l < |r| ==> r[k] < r[l]
    ensures forall i :: 0 <= i < |entries| && ProcessEntry(env, entries[i]).Generated? ==> i in r
    decreases |entries|
  {
    if |entries| == 0 then []
    else
      var prefix := GeneratingIndices(env, entries[..|entries| - 1]);
      if ProcessEntry(env, entries[|entries| - 1]).Generated? then prefix + [|entries| - 1] else prefix
  }

  /** The k-th output file is the file of the k-th generating entry: outputs
      follow entry order, one per generating entry. */
  lemma {:induction false} OutputsFollowEntries<D, A>(env: Collaborators<D, A>, entries: seq<FileEntry<D>>)
    ensures |CollectOutputs(env, entries)| == |GeneratingIndices(env, entries)|
    ensures forall k :: 0 <= k < |CollectOutputs(env, entries)| ==>
      CollectOutputs(env, entries)[k] == ProcessEntry(env, entries[GeneratingIndices(env, entries)[k]]).file
    decreases |entries|
  {
    if |entries| > 0 {
      var prefix := entries[..|entries| - 1];
      OutputsFollowEntries(env, prefix);
      assert forall j :: 0 <= j < |prefix| ==> prefix[j] == entries[j];
    }
  }

  /** Every output is named `__generated__/<dasherized name>.ts` beside the
      source file of the entry it comes from. */
  lemma OutputsAreNamedAfterEntries<D, A>(env: Collaborators<D, A>, entries: seq<FileEntry<D>>, k: int)
    requires 0 <= k < |CollectOutputs(env, entries)|
    ensures exists i :: (0 <= i < |entries| && Generatable(env, entries[i]) && ProcessEntry(env, entries[i]).Generated? &&
      CollectOutputs(env, entries)[k].fileName ==
        OutputFileName(env.dirname(entries[i].fileName), env.dasherize(DominantName(env.getDominantDefinition(entries[i])).value)))
  {
    OutputsFollowEntries(env, entries);
    var i := GeneratingIndices(env, entries)[k];
    assert ProcessEntry(env, entries[i]).Generated?;
  }

  function WithDocuments<D>(entries: seq<FileEntry<D>>): seq<FileEntry<D>>
    decreases |entries|
  {
    if |entries| == 0 then []
    else
      var last := entries[|entries| - 1];
      WithDocuments(entries[..|entries| - 1]) + (if last.documentNode.Some? then [last] else [])
  }

  /** Entries without a document contribute nothing: dropping them changes
      neither the errors nor the outputs. */
  lemma {:induction false} EntriesWithoutDocumentContributeNothing<D, A>(env: Collaborators<D, A>, entries: seq<FileEntry<D>>)
    ensures CollectErrors(env, WithDocuments(entries)) == CollectErrors(env, entries)
    ensures CollectOutputs(env, WithDocuments(entries)) == CollectOutputs(env, entries)
    decreases |entries|
  {
    if |entries| > 0 {
      var prefix := entries[..|entries| - 1];
      var last := entries[|entries| - 1];
      EntriesWithoutDocumentContributeNothing(env, prefix);
      CollectAppend(env, WithDocuments(prefix), if last.documentNode.Some? then [last] else []);
      if last.documentNode.Some? {
        assert [last][..0] == [];
      }
    }
  }

  lemma CollectSingle<D, A>(env: Collaborators<D, A>, entry: FileEntry<D>)
    ensures CollectErrors(env, [entry]) == ErrorsOf(ProcessEntry(env, entry))
    ensures CollectOutputs(env, [entry]) == OutputsOf(ProcessEntry(env, entry))
  {
  }

  /** What an entry contributes lands between what precedes and what follows it. */
  lemma CollectAround<D, A>(env: Collaborators<D, A>, a: seq<FileEntry<D>>, entry: FileEntry<D>, b: seq<FileEntry<D>>)
    ensures CollectErrors(env, a + [entry] + b) == CollectErrors(env, a) + ErrorsOf(ProcessEntry(env, entry)) + CollectErrors(env, b)
    ensures CollectOutputs(env, a + [entry] + b) == CollectOutputs(env, a) + OutputsOf(ProcessEntry(env, entry)) + CollectOutputs(env, b)
  {
    CollectAppend(env, a + [entry], b);
    CollectAppend(env, a, [entry]);
    CollectSingle(env, entry);
  }

  /** A `complex` document contributes exactly its one error and no output,
      wherever it stands among the entries. */
  lemma ComplexEntryReportsOnce<D, A>(env: Collaborators<D, A>, a: seq<FileEntry<D>>, entry: FileEntry<D>, b: seq<FileEntry<D>>)
    requires entry.documentNode.Some? && env.getDominantDefinition(entry).kind == Complex
    ensures CollectErrors(env, a + [entry] + b) == CollectErrors(env, a) + [ComplexError(entry)] + CollectErrors(env, b)
    ensures CollectOutputs(env, a + [entry] + b) == CollectOutputs(env, a) + CollectOutputs(env, b)
  {
    CollectAround(env, a, entry, b);
    assert ErrorsOf(ProcessEntry(env, entry)) == [ComplexError(entry)];
    assert CollectOutputs(env, a) + [] == CollectOutputs(env, a);
  }

  /** A typing error whose start maps into another template's inlined text is
      dropped: the entry contributes neither an error nor an output. */
  lemma SuppressedEntryContributesNothing<D, A>(env: Collaborators<D, A>, a: seq<FileEntry<D>>, entry: FileEntry<D>, b: seq<FileEntry<D>>)
    requires Generatable(env, entry)
    requires VisitOf(env, entry).Failure? && VisitOf(env, entry).error.TypeGenError?
    requires VisitOf(env, entry).error.loc.Some?
    requires entry.getSourcePosition(VisitOf(env, entry).error.loc.value.start).isInOtherExpression
    ensures CollectErrors(env, a + [entry] + b) == CollectErrors(env, a) + CollectErrors(env, b)
    ensures CollectOutputs(env, a + [entry] + b) == CollectOutputs(env, a) + CollectOutputs(env, b)
  {
    CollectAround(env, a, entry, b);
    assert ProcessEntry(env, entry).Suppressed?;
    assert CollectErrors(env, a) + [] == CollectErrors(env, a);
    assert CollectOutputs(env, a) + [] == CollectOutputs(env, a);
  }

  /** An entry whose visit succeeds contributes exactly its one output file
      and no error, wherever it stands among the entries. */
  lemma GeneratedEntryOutputsOnce<D, A>(env: Collaborators<D, A>, a: seq<FileEntry<D>>, entry: FileEntry<D>, b: seq<FileEntry<D>>)
    requires Generatable(env, entry) && VisitOf(env, entry).Success?
    ensures CollectErrors(env, a + [entry] + b) == CollectErrors(env, a) + CollectErrors(env, b)
    ensures CollectOutputs(env, a + [entry] + b) ==
      CollectOutputs(env, a) + [OutputFile(OutputFileNameOf(env, entry), VisitOf(env, entry).value)] + CollectOutputs(env, b)
  {
    CollectAround(env, a, entry, b);
    assert CollectErrors(env, a) + [] == CollectErrors(env, a);
  }

  /** A located typing error outside other templates' text contributes exactly
      its translated error and no output, wherever the entry stands. */
  lemma TranslatedEntryReportsOnce<D, A>(env: Collaborators<D, A>, a: seq<FileEntry<D>>, entry: FileEntry<D>, b: seq<FileEntry<D>>)
    requires Generatable(env, entry)
    requires VisitOf(env, entry).Failure? && VisitOf(env, entry).error.TypeGenError?
    requires VisitOf(env, entry).error.loc.Some?
    requires !entry.getSourcePosition(VisitOf(env, entry).error.loc.value.start).isInOtherExpression
    ensures var loc := VisitOf(env, entry).error.loc.value;
      CollectErrors(env, a + [entry] + b) ==
        CollectErrors(env, a) +
        [TsGqlError(VisitOf(env, entry).error.message, Some(ErrorContent(entry.fileName, entry.sourceText,
          entry.getSourcePosition(loc.start).pos, entry.getSourcePosition(loc.end).pos)))] +
        CollectErrors(env, b)
    ensures CollectOutputs(env, a + [entry] + b) == CollectOutputs(env, a) + CollectOutputs(env, b)
  {
    CollectAround(env, a, entry, b);
    assert CollectOutputs(env, a) + [] == CollectOutputs(env, a);
  }
}
